=== FILE: README.md ===
# Signalling model of a two-party WebRTC video call

This project models the signalling core of a small browser video-call
application and proves properties of the model in Dafny. The application has
two parts:

- **A browser client (main.js).** It keeps a few global flags
  (`isNegotiating`, `isCallInProgress`, `currentZoom`), an `RTCPeerConnection`
  and a queue of ICE candidates that arrived too early. Its handlers react to
  socket messages, button clicks, ICE connection-state changes and a
  10-second disconnect timer.
- **A WebSocket server (server.js).** It admits a connection only when the
  connection names a `room`. It forwards every frame, as the same text, to
  the other open connections of that room.

## How the model is built

- `signal.dfy` (module `Signal`) holds the messages the clients exchange.
  `Classify` is the if/else-if chain of `onmessage`. `Wire` is the form a
  sent message has when the other client parses it.
- `client.dfy` (module `Client`) holds the client as one immutable record.
  Each handler is a pure function of the state and the event's data.
  `sendMessage` appends to an `outbox` while the socket is open. `Step` and
  `Run` drive the record with events.
- The handlers that `await` are split at their await points, so other
  events can run in between:
  - `call` has a begin step (`BeginCall`) and a settle step (`FinishCall`).
  - `handleOffer` has a begin step (`BeginOffer`), a settle step for
    `setRemoteDescription` (`RemoteSettles`) and a settle step for
    `createAnswer`/`setLocalDescription` (`AnswerSettles`).
  - What the WebRTC engine decides (resolve or reject, and the description it
    produces) is a parameter of the settle event. Any outcome can happen.
- Each peer connection has a generation number, and a suspended `call` or
  `handleOffer` remembers the generation it is working on.
  `resetCallState` closes the connection (main.js:333) and makes a new one.
  An operation pending on the closed connection never succeeds. So a
  `call` or `handleOffer` suspended across a reset ends with the flag
  raised, sends nothing, and leaves the new connection untouched
  (`ResetDuringCallSticks`, `ResetDuringOfferSticks`).
- Disconnect timers:
  - `timerArmed` is the timer that the connection's `disconnectTimeout`
    variable points to. Only this one can be cancelled.
  - `strayTimers` counts pending timers that nothing can cancel any more.
  - A timer that fires reads the current connection's ICE state.
- `client_properties.dfy` (module `ClientProperties`) holds lemmas about
  single steps and about whole runs.
- `pair.dfy` (module `Pair`) joins two clients by two in-order pipes. This
  is what the relay does in a room that holds exactly the two of them
  (`RelayProperties.PairRelay`).
- `relay.dfy` (module `Relay`) models the server:
  - Connections are numbered in connection order, which is the order in
    which `wss.clients` is iterated.
  - A connection has an optional room and an open flag.
  - The server keeps a log of received frames and a log of sends. Nothing in
    the server reads these logs; they exist only to state provenance.
- `relay_properties.dfy` (module `RelayProperties`) holds the invariants of
  the server over arbitrary runs, plus concrete scenarios.

### What the server and the client do not do

- **The server sends nothing of its own.** Its only `send` is the relay
  (server.js:42). It has no room capacity and no room-full reply, no
  participant count, no create-offer or peer-joined message and no
  heartbeat (server.js:22-51). `ThirdClientAdmitted` shows a third client
  being admitted to a room.
- **request-to-call is not interpreted by anyone.** The call button sends
  it (main.js:317). The server forwards it like any other frame
  (server.js:37-45). The other client's `onmessage` has no branch for it
  (main.js:109-129), so it is ignored (`PeerMessageBranch`).
- **The answer branch has no guard.** It applies an answer whatever the
  client's state and does not flush the candidate queue (main.js:120-121,
  `AnswerIgnoresState`).
- **Nothing lowers the negotiation flag except a handler that runs to its
  end.**
  - `resetCallState` does not touch `isNegotiating` (main.js:325-339,
    `ResetCallState`).
  - The `finally` of `call` runs only once its awaits settle
    (main.js:195-203). A reset while it waits closes the connection its
    createOffer or setLocalDescription is pending on, so the flag stays
    raised for good (`ResetDuringCallSticks`, `StuckForever`).
  - `handleOffer` has no `finally` (main.js:138-148). A rejected engine step,
    or a reset while it waits, leaves the flag raised for good
    (`RejectedOfferSticks`, `ResetDuringOfferSticks`, `StuckForever`).
- **ICE `failed` triggers nothing.** The state handler tests only
  `connected` and `disconnected` (main.js:164-175, `FailedDoesNothing`).
- **No call is ever started.**
  - `call` runs only on a create-offer message (main.js:114-115).
  - No client sends create-offer (main.js:144, 178, 198, 317, 321), and
    the server sends nothing of its own (server.js:42).
  - So between two copies of this client, no offer or answer is ever sent,
    and no remote description is ever set (`Pair.NoCallIsEverNegotiated`).

## Model

| member | source | states |
|---|---|---|
| Signal.Classify | main.js:107-129 | onmessage takes the branch of the first test that passes, in the fixed order room-full, create-offer, peer-joined, offer, answer, candidate, count, hangup. It takes no branch exactly when every test fails. The offer, answer or candidate it hands on is the message's own field. |
| Signal.PeerMessageBranch | main.js:114-129 | A client reads an offer, answer or candidate sent by the other client in the matching branch, with the payload intact. It reads a hangup as a hangup and a request-to-call as nothing. No client message selects room-full, create-offer, peer-joined or count. |
| Client.Send | main.js:307-309 | A message is appended to what the client has sent if and only if the socket is open. Otherwise nothing is sent. Nothing else changes. |
| Client.ResetCallState | main.js:325-339 | Empties the candidate queue, ends the call, sets zoom to 1 and installs a new peer connection with no remote description and no applied candidates. It leaves the negotiation flag, any suspended handler and the outbox unchanged. It cancels no pending timer. |
| Client.Hangup | main.js:320-323 | Sends one hangup while the socket is open, then performs exactly the reset. |
| Client.HandleCandidate | main.js:150-157 | A candidate is applied at once if and only if a remote description is set. Otherwise it is appended to the end of the queue. Nothing else changes. |
| Client.BeginCall | main.js:192-194 | A call begun while negotiating is a no-op. Otherwise only the flag is raised, and a call is suspended on the current connection. |
| Client.FinishCall | main.js:195-203 | Sends at most one message, and only an offer the engine produced. While the call's connection is still current, the offer is always sent when the socket is open, and the flag is lowered whether the engine step failed or not. If a reset replaced the connection meanwhile, nothing is sent and the flag stays raised. Nothing else changes. |
| Client.BeginOffer | main.js:138-141 | An offer that arrives while negotiating is dropped with no change. Otherwise only the flag is raised, and the offer waits to be applied to the current connection. |
| Client.RemoteSettles | main.js:141 | The handler goes on to the answer if and only if setRemoteDescription resolved on the connection that is still current, and that connection then holds the offer. A rejection, or a connection closed and replaced meanwhile, ends the handler with the flag still raised and the connection untouched. |
| Client.AnswerSettles | main.js:142-147 | With an answer made on the connection that is still current: exactly one answer is sent and every queued candidate is applied after those already applied, in queue order. The queue ends empty and the flag lowered. Without an answer, or with the connection replaced meanwhile: the handler ends with the flag raised and nothing else changed. |
| Client.ApplyAnswer | main.js:120-121 | An accepted answer becomes the remote description. Queue, flag, call state, suspended handler and outbox are untouched. |
| Client.OnMessage | main.js:107-129 | An unparseable frame, and a peer-joined, count or unrecognised message (a relayed request-to-call among them), change no state. room-full leaves the page and changes nothing else. |
| Client.ClickCallButton | main.js:315-318 | During a call the click hangs up. Otherwise it only sends a request-to-call. |
| Client.OnIceChange | main.js:164-175 | `connected` cancels the tracked timer and marks the call in progress. `disconnected` schedules one more timer. Every other state, `failed` included, only records the state. |
| Client.OnTimer | main.js:171-173 | A firing timer removes exactly one pending timer. When the current connection is still `disconnected` it hangs up: one hangup is sent while the socket is open, the call ends, the queue empties, zoom returns to 1 and a new connection with no remote description or applied candidates replaces the old one, while the flag and any suspended handler are kept. Otherwise only the timer bookkeeping changes. A timer that is not pending does nothing. |
| Client.OnLocalCandidate | main.js:177-179 | A discovered local candidate is sent while the socket is open. The final null candidate sends nothing. |
| Client.NextZoom | main.js:207-210 | The zoom factor goes 1 to 1.5, 1.5 to 2, and anything else to 1. |
| Client.OnSocketClosed | main.js:132-135 | A closed socket ends the call, empties the queue, sets zoom to 1 and replaces the connection with one holding no remote description. It keeps the flag, any suspended handler and every pending timer, and sends nothing. |
| ClientProperties.RunKeepsOutbox | main.js:307-309 | Sent messages are never taken back or reordered by any run of events. |
| ClientProperties.StepKeepsInv | main.js:138-148 | A suspended call or offer handler implies the flag is raised. A new one starts only from a lowered flag. A suspended one only moves forward, so at most one negotiation is in flight. |
| ClientProperties.RunKeepsInv | main.js:192-204 | The at-most-one-negotiation invariant holds along every run. |
| ClientProperties.OfferDroppedWhileNegotiating | main.js:139 | An offer received while negotiating changes nothing and sends nothing. |
| ClientProperties.CallIgnoredWhileNegotiating | main.js:193 | A create-offer received while negotiating changes nothing and sends nothing. |
| ClientProperties.CallCompletes | main.js:192-204 | A whole call with no event in between sends at most one offer and leaves the flag lowered, whether the engine failed or not. Nothing else changes. |
| ClientProperties.EarlyCandidatesQueue | main.js:150-157 | Candidates arriving with no remote description are appended to the queue in arrival order, and nothing else changes. |
| ClientProperties.OfferHandshake | main.js:138-148 | On a connection with no remote description yet, a successful handleOffer, with candidates arriving meanwhile, does the following. It sets the offer as the remote description and sends exactly one answer. It applies the old queue and then the new arrivals in arrival order. It leaves the queue empty and the flag lowered. |
| ClientProperties.LateCandidateOvertakesQueue | main.js:141-157 | A candidate arriving after setRemoteDescription resolves is applied before an earlier candidate still waiting in the queue. |
| ClientProperties.OfferAfterQueuedAnswer | main.js:120-153 | An answer applied while a candidate is queued leaves it queued. A candidate arriving during the next successful handleOffer is then applied at once, before the queued one, which only the flush after the answer applies. |
| ClientProperties.RejectedOfferSticks | main.js:139-147 | A rejected setRemoteDescription(offer) leaves the flag raised with no handler pending. |
| ClientProperties.StuckForever | main.js:139-147 | From a stuck state (flag raised, no handler suspended) no event ever lowers the flag, and the client never again sends an offer or an answer. |
| ClientProperties.StaleHandlerSticks | main.js:138-148 | A suspended call or handleOffer whose connection was replaced settles with the flag raised, no handler left and nothing sent. |
| ClientProperties.ResetDuringCallSticks | main.js:192-204 | A hangup from the peer while call waits for the engine leaves the flag raised for good, whatever the engine reports, and no offer is sent. |
| ClientProperties.ResetDuringOfferSticks | main.js:138-148 | A hangup from the peer while handleOffer waits at either await leaves the flag raised for good, whatever the engine reports, and no answer is sent. |
| ClientProperties.ClosedSendsNothing | main.js:132-135 | Once the socket is closed, no run of events sends anything or reopens it. |
| ClientProperties.AnswerIgnoresState | main.js:120-121 | An answer sets the remote description whatever the flag, call state or suspended handler. Queued candidates stay queued. |
| ClientProperties.HangupKeepsFlag | main.js:127-128 | A hangup message resets the call but keeps the negotiation flag and any suspended handler. |
| ClientProperties.DisconnectRecovered | main.js:164-175 | `disconnected` followed by `connected` cancels the timer, so its firing sends no hangup, and the call is in progress. |
| ClientProperties.DisconnectExpired | main.js:170-173 | A timer that fires while still `disconnected` sends exactly one hangup and resets the call. |
| ClientProperties.FailedDoesNothing | main.js:164-175 | `failed` changes only the recorded ICE state. |
| ClientProperties.OverwrittenTimerHangsUpEarly | main.js:162-173 | After two disconnections without `connected` in between, `connected` leaves one timer pending. That timer hangs up at the next disconnection without waiting for that disconnection's own timer. |
| ClientProperties.ZoomCycle | main.js:207-210 | Three presses restore the zoom, and no press leaves it unchanged. |
| Pair.NoCallIsEverNegotiated | main.js:114-115 | Between two copies of the client joined by the relay, under every schedule: no offer or answer is ever sent, neither flag is ever raised, and no connection ever holds a remote description. |
| Relay.Admit | server.js:25-33 | A connection is kept open with the given room if and only if the room parameter is present and non-empty. Otherwise it is closed with no room. |
| Relay.RecipientsFrom | server.js:40-44 | The relay loop selects exactly the other open clients of the sender's room, each once, in iteration order. |
| Relay.Recipients | server.js:40-44 | The recipients are every other open client of the sender's room, with no cap on their number, each once in connection order. There are none when the sender has no room or is closed. The sender is never among them. |
| Relay.Deliveries | server.js:38-44 | One frame produces one send to each client that passes the relay filter, exactly once and in connection order, and none to anyone else. Each send carries the sender's frame string itself, never parsed or rewritten. A sender that cannot speak produces no send. |
| Relay.OnMessage | server.js:37-45 | A frame is logged and relayed, and the connections are unchanged. A connection that cannot speak produces nothing. |
| Relay.OnConnect | server.js:22-34 | A new connection is added at the end, and nothing is sent. |
| Relay.OnClose | server.js:48-50 | Closing a connection only takes it out of the open state. No other connection, and neither log, changes. |
| RelayProperties.ServerRunKeepsInv | server.js:22-45 | Along any run the following hold. Roomless connections are closed. Every logged frame comes from a room member. Every send goes to another member of the sender's room and carries a frame the sender sent. |
| RelayProperties.EveryDeliveryFromRoommate | server.js:37-45 | From a fresh server, every frame any client receives is a string that another client of the same room sent. A connection without a room neither sends nor receives. |
| RelayProperties.PairRelay | server.js:40-44 | In a room with exactly two open connections, a frame from one goes to the other and to no one else. |
| RelayProperties.ThirdClientAdmitted | server.js:22-45 | A third client joining the same room is admitted, and receives a roommate's frame like the second. |
| RelayProperties.RejectedAndForeignLeftOut | server.js:27-31 | Connections with a missing or empty room are closed and produce nothing. They receive nothing, and neither does another room. A frame that is not JSON is relayed unchanged. |
| RelayProperties.CloseTouchesNoOther | server.js:48-50 | Closing a connection changes no other connection and neither log, and the closed connection receives nothing more. |

## Left out

- DOM and UI effects are not modelled. This covers button labels and
  enabling, alerts, display toggles, the participant count text, the
  clipboard, and the mic and video toggles (main.js:3-22, 47-60, 341-360).
  They change no signalling state.
- `getUserMedia`, recording, audio mixing and canvas drawing are left out
  (main.js:62-95, 217-304). They are media APIs and floating-point
  geometry. `isRemoteVideoReady` and the recording stop inside
  `resetCallState` belong to this part.
- The WebRTC engine is abstract: `createOffer`, `createAnswer`,
  `setLocalDescription`, `setRemoteDescription` and ICE/DTLS. Its outcomes
  are event parameters. The local description itself is not tracked. The
  ICE server configuration (main.js:39-44) is inert data, and `addTrack`
  and `ontrack` only carry media.
- `connectWebSocket` and `onopen` are the starting state `Init`: the socket
  is open and the first peer connection exists. `FreshPeer` and `Init` are
  helpers with no row: the state `createPeerConnection` builds
  (main.js:159-190) is stated through `ResetCallState` and `OnSocketClosed`.
- A `call` or `handleOffer` suspended on a closed connection never resumes
  in the code. The model ends it at its next settle event instead. Either way the
  flag stays raised and no handler will lower it.
- Client.HandleCandidate: assumes `new RTCIceCandidate` accepts the
  candidate (main.js:151). For a candidate it rejects, the handler throws
  and the candidate is neither queued nor applied. The model has no
  rejected candidates, because the candidate's structure is abstract.
- Relay.OnConnect: takes the `room` parameter as already extracted. The URL
  parsing at server.js:24 is not modelled. A request target that `new URL`
  rejects, such as `//`, makes the connection handler throw before any
  admission, and the model has no event for that.
- Relay.Deliveries: a frame is the string `message.toString()` yields
  (server.js:38). A binary frame becomes text, with invalid UTF-8 replaced,
  so it arrives as the same text rather than the same bytes. The model has
  only text frames.
- JSON parsing is abstract. A frame is either unparseable or a message whose
  relevant fields are present and truthy. The count value is read only by
  the UI and is not kept.
- Signal.Classify: a `type` field that is not a string is treated as absent.
  This is equivalent, because it can never equal any of the tested strings.
- The answer branch is one atomic step. Its `setRemoteDescription` takes
  effect at once when accepted. A rejection changes nothing.
- After the room-full branch navigates away, the client ignores every later
  event. Nothing of the old page survives the navigation.
- Timers have no clock. A timer firing is an event that may come at any
  time while the timer is pending, so "before" and "after" the 10-second
  grace period are only orders of events.
- Socket and HTTP I/O are not modelled: express static serving,
  `server.listen` and all console logging (server.js:3-19, 53-56). The
  server's received-frame and send logs exist only to state provenance.
- Pair.NoCallIsEverNegotiated: the relay is two reliable in-order pipes. This
  is what `RelayProperties.PairRelay` proves for a room of exactly two open
  connections. Clients outside this code, and rooms with more members, are
  outside that lemma.

=== FILE: client.dfy ===
/**
 * The browser client's signalling state machine: the global flags of
 * main.js, an abstract peer connection, the queue of early ICE candidates,
 * the disconnect timers and the messages sent on the socket. Every event
 * handler is a pure function from the state (and the event's data) to the
 * next state; `sendMessage` appends to `outbox`.
 *
 * The handlers that `await` are split at their await points so that other
 * events can interleave: `call` is begun by the create-offer branch and
 * finished by `CallSettles`; `handleOffer` is begun by the offer branch,
 * continued by `RemoteSettles` (setRemoteDescription resolved or rejected)
 * and finished by `AnswerSettles` (createAnswer and setLocalDescription
 * resolved, or one of them rejected). What the WebRTC engine decides is a
 * parameter of the settling event.
 */
module Client {
  import opened Wrappers
  import opened Signal

  /** `RTCPeerConnection.iceConnectionState`. */
  datatype IceState = New | Checking | Connected | Completed | Disconnected | Failed | Closed

  /** The abstract RTCPeerConnection. `gen` tells successive connections
      apart; `remote` is the remote description it holds; `applied` lists the
      candidates passed to addIceCandidate, in order; `timerArmed` says that
      the disconnect timer this connection's handler last scheduled (the one
      its `disconnectTimeout` variable names) is still pending. */
  datatype Peer = Peer(gen: nat, remote: Option<Blob>, applied: seq<Blob>, ice: IceState, timerArmed: bool)

  /** `currentZoom`: it only ever holds 1, 1.5 or 2. */
  datatype Zoom = X1 | X15 | X2

  /** The suspended `call` or `handleOffer`, if any, and the connection `gen`
      its pending engine operation was issued on: `Calling` waits for
      createOffer and setLocalDescription; `Applying` waits for
      setRemoteDescription(offer); `Answering` waits for createAnswer and
      setLocalDescription. */
  datatype Task = NoTask | Calling(gen: nat) | Applying(offer: Blob, gen: nat) | Answering(gen: nat)

  /** The client. `strayTimers` counts pending disconnect timers that no
      handler can cancel any more: their handle was overwritten, or their
      peer connection was replaced. */
  datatype ClientState = ClientState(
    negotiating: bool,
    inCall: bool,
    zoom: Zoom,
    pc: Peer,
    queue: seq<Blob>,
    task: Task,
    strayTimers: nat,
    socketOpen: bool,
    departed: bool,
    outbox: seq<Outgoing>)

  /** What `call` learns from the engine: the offer made by createOffer and
      committed by setLocalDescription, or a rejection of either. */
  datatype CallOutcome = OfferMade(sdp: Blob) | CallFailed

  /** The events that drive the client. `Receive` carries, for the answer
      branch, whether setRemoteDescription(answer) resolves. */
  datatype Event =
    | Receive(frame: Inbound, answerAccepted: bool)
    | CallSettles(outcome: CallOutcome)
    | RemoteSettles(accepted: bool)
    | AnswerSettles(answer: Option<Blob>)
    | ClickCall
    | IceChange(state: IceState)
    | TimerFires(tracked: bool)
    | LocalCandidate(candidate: Option<Blob>)
    | ToggleZoom
    | SocketClosed

  /** A peer connection as `createPeerConnection` makes it. */
  function FreshPeer(gen: nat): Peer {
    Peer(gen, None, [], New, false)
  }

  /** The state once the socket has opened and the first peer connection exists. */
  function Init(): ClientState {
    ClientState(false, false, X1, FreshPeer(0), [], NoTask, 0, true, false, [])
  }

  /** Disconnect timers still pending, cancellable or not. */
  function PendingTimers(c: ClientState): nat {
    c.strayTimers + (if c.pc.timerArmed then 1 else 0)
  }

  /** `sendMessage`: a message leaves only while the socket is open. */
  function Send(c: ClientState, o: Outgoing): (r: ClientState)
    ensures c.socketOpen <==> r.outbox == c.outbox + [o]
    ensures r.outbox == c.outbox || r.outbox == c.outbox + [o]
    ensures r.(outbox := c.outbox) == c
  {
    if c.socketOpen then c.(outbox := c.outbox + [o]) else c
  }

  /** `resetCallState`: forgets the call and installs a new peer connection.
      The negotiation flag and any suspended handler survive, and so do
      pending disconnect timers: none is cancelled. */
  function ResetCallState(c: ClientState): (r: ClientState)
    ensures !r.inCall && r.queue == [] && r.zoom == X1
    ensures r.pc.remote == None && r.pc.applied == [] && r.pc.ice == New
    ensures r.pc.gen != c.pc.gen && !r.pc.timerArmed
    ensures r.negotiating == c.negotiating && r.task == c.task
    ensures r.outbox == c.outbox && r.socketOpen == c.socketOpen && r.departed == c.departed
    ensures PendingTimers(r) == PendingTimers(c)
  {
    c.(inCall := false, queue := [], zoom := X1,
       pc := FreshPeer(c.pc.gen + 1),
       strayTimers := PendingTimers(c))
  }

  /** `hangup`: tells the peer, then resets. */
  function Hangup(c: ClientState): (r: ClientState)
    ensures r.outbox == if c.socketOpen then c.outbox + [HangupOut] else c.outbox
    ensures r == ResetCallState(c.(outbox := r.outbox))
  {
    ResetCallState(Send(c, HangupOut))
  }

  /** `handleCandidate`: a candidate goes to the engine at once exactly when a
      remote description is set, and to the end of the queue otherwise;
      nothing else changes. */
  function HandleCandidate(c: ClientState, x: Blob): (r: ClientState)
    ensures c.pc.remote.Some? <==> r.pc.applied == c.pc.applied + [x] && r.queue == c.queue
    ensures c.pc.remote.None? <==> r.queue == c.queue + [x] && r.pc.applied == c.pc.applied
    ensures r.(queue := c.queue, pc := r.pc.(applied := c.pc.applied)) == c
  {
    if c.pc.remote.Some? then c.(pc := c.pc.(applied := c.pc.applied + [x]))
    else c.(queue := c.queue + [x])
  }

  /** The synchronous part of `call`: dropped while negotiating, otherwise
      raises the flag and suspends on createOffer issued on the current
      peer connection. */
  function BeginCall(c: ClientState): (r: ClientState)
    ensures c.negotiating ==> r == c
    ensures !c.negotiating ==> r.negotiating && r.task == Calling(c.pc.gen)
    ensures r.(negotiating := c.negotiating, task := c.task) == c
  {
    if c.negotiating then c else c.(negotiating := true, task := Calling(c.pc.gen))
  }

  /** The rest of `call`. While its connection is still current: sends the
      offer when the engine produced one, and in every case (the `finally`)
      lowers the flag. If the connection was closed and replaced meanwhile,
      the pending operation never succeeds and the handler never resumes:
      nothing is sent and the flag stays raised. */
  function FinishCall(c: ClientState, o: CallOutcome): (r: ClientState)
    requires c.task.Calling?
    ensures r.task == NoTask
    ensures c.pc.gen != c.task.gen ==> r == c.(task := NoTask)
    ensures c.pc.gen == c.task.gen ==> !r.negotiating
    ensures r.outbox == c.outbox || (o.OfferMade? && r.outbox == c.outbox + [OfferOut(o.sdp)])
    ensures o.OfferMade? && c.socketOpen && c.pc.gen == c.task.gen ==> r.outbox == c.outbox + [OfferOut(o.sdp)]
    ensures r.(negotiating := c.negotiating, task := c.task, outbox := c.outbox) == c
  {
    if c.pc.gen != c.task.gen then c.(task := NoTask)
    else
      var s := match o
        case OfferMade(sdp) => Send(c, OfferOut(sdp))
        case CallFailed => c;
      s.(negotiating := false, task := NoTask)
  }

  /** The synchronous part of `handleOffer`: dropped while negotiating,
      otherwise raises the flag and issues setRemoteDescription(offer) on the
      current peer connection. */
  function BeginOffer(c: ClientState, sdp: Blob): (r: ClientState)
    ensures c.negotiating ==> r == c
    ensures !c.negotiating ==> r.negotiating && r.task == Applying(sdp, c.pc.gen)
    ensures r.(negotiating := c.negotiating, task := c.task) == c
  {
    if c.negotiating then c else c.(negotiating := true, task := Applying(sdp, c.pc.gen))
  }

  /** setRemoteDescription(offer) settles. If it resolved on the connection
      that is still current, that connection holds the offer and the handler
      goes on to the answer. If it rejected, or the connection was closed and
      replaced meanwhile (a closed connection's pending operation never
      succeeds), `handleOffer` ends with the flag still raised: there is no
      `finally`. */
  function RemoteSettles(c: ClientState, accepted: bool): (r: ClientState)
    requires c.task.Applying?
    ensures r.negotiating == c.negotiating
    ensures accepted && c.pc.gen == c.task.gen <==> r.task.Answering?
    ensures r.task.Answering? ==> r.task.gen == c.pc.gen && r.pc.remote == Some(c.task.offer)
    ensures !r.task.Answering? ==> r.task == NoTask && r.pc == c.pc
    ensures r.pc.(remote := c.pc.remote) == c.pc
    ensures r.(pc := c.pc, task := c.task) == c
  {
    if accepted && c.pc.gen == c.task.gen then c.(task := Answering(c.pc.gen), pc := c.pc.(remote := Some(c.task.offer)))
    else c.(task := NoTask)
  }

  /** The end of `handleOffer`. With an answer made and committed on the
      connection that is still current: sends it, hands every queued
      candidate to that connection in arrival order, empties the queue and
      lowers the flag. Otherwise (createAnswer or setLocalDescription
      rejected, or the connection was closed and replaced meanwhile): ends
      with the flag still raised and the queue untouched. */
  function AnswerSettles(c: ClientState, answer: Option<Blob>): (r: ClientState)
    requires c.task.Answering?
    ensures r.task == NoTask
    ensures answer.None? || c.pc.gen != c.task.gen ==> r == c.(task := NoTask)
    ensures answer.Some? && c.pc.gen == c.task.gen ==>
      && !r.negotiating && r.queue == []
      && r.pc.applied == c.pc.applied + c.queue
      && r.outbox == (if c.socketOpen then c.outbox + [AnswerOut(answer.value)] else c.outbox)
    ensures r.pc.(applied := c.pc.applied) == c.pc
    ensures r.(negotiating := c.negotiating, task := c.task, queue := c.queue, pc := c.pc, outbox := c.outbox) == c
  {
    if answer.None? || c.pc.gen != c.task.gen then c.(task := NoTask)
    else
      var s := Send(c, AnswerOut(answer.value));
      s.(pc := s.pc.(applied := s.pc.applied + s.queue), queue := [], negotiating := false, task := NoTask)
  }

  /** The answer branch: `setRemoteDescription(answer)` whatever the flag,
      the call state or a suspended handler, and without touching the queue. */
  function ApplyAnswer(c: ClientState, sdp: Blob, accepted: bool): (r: ClientState)
    ensures accepted ==> r.pc.remote == Some(sdp)
    ensures !accepted ==> r == c
    ensures r.pc.(remote := c.pc.remote) == c.pc
    ensures r.(pc := c.pc) == c
  {
    if accepted then c.(pc := c.pc.(remote := Some(sdp))) else c
  }

  /** `onmessage`: an unparseable frame throws before any branch; otherwise
      exactly the branch `Classify` picks runs. room-full leaves the page. */
  function OnMessage(c: ClientState, frame: Inbound, answerAccepted: bool): (r: ClientState)
    ensures frame.Unparseable? ==> r == c
    ensures frame.Parsed? && Classify(frame.msg) in {PeerJoined, Count, Ignored} ==> r == c
    ensures frame.Parsed? && Classify(frame.msg) == RoomFull ==> r == c.(departed := true)
  {
    match frame
    case Unparseable => c
    case Parsed(m) =>
      match Classify(m)
      case RoomFull => c.(departed := true)
      case CreateOffer => BeginCall(c)
      case PeerJoined => c
      case OfferIn(sdp) => BeginOffer(c, sdp)
      case AnswerIn(sdp) => ApplyAnswer(c, sdp, answerAccepted)
      case CandidateIn(x) => HandleCandidate(c, x)
      case Count => c
      case HangupIn => ResetCallState(c)
      case Ignored => c
  }

  /** `handleCallButtonClick`: hangs up during a call, and otherwise only asks
      the server, with a request-to-call message, for a call. */
  function ClickCallButton(c: ClientState): (r: ClientState)
    ensures c.inCall ==> r == Hangup(c)
    ensures !c.inCall ==> r.outbox == (if c.socketOpen then c.outbox + [RequestToCall] else c.outbox)
    ensures !c.inCall ==> r.(outbox := c.outbox) == c
  {
    if c.inCall then Hangup(c) else Send(c, RequestToCall)
  }

  /** `oniceconnectionstatechange`. `connected` cancels the timer the handle
      names and marks the call in progress; `disconnected` schedules a new
      timer, and a timer the handle named before becomes uncancellable; every
      other state, `failed` included, only records the state. */
  function OnIceChange(c: ClientState, st: IceState): (r: ClientState)
    ensures r.pc.ice == st && r.pc.gen == c.pc.gen
    ensures st == Connected ==> r.inCall && !r.pc.timerArmed && r.strayTimers == c.strayTimers
    ensures st == Disconnected ==> r.pc.timerArmed && PendingTimers(r) == PendingTimers(c) + 1
    ensures st != Connected ==> r.inCall == c.inCall
    ensures st != Connected && st != Disconnected ==> r == c.(pc := c.pc.(ice := st))
    ensures r.(pc := c.pc, inCall := c.inCall, strayTimers := c.strayTimers) == c
    ensures r.pc.(ice := c.pc.ice, timerArmed := c.pc.timerArmed) == c.pc
  {
    var p := c.pc.(ice := st);
    if st == Connected then
      c.(pc := p.(timerArmed := false), inCall := true)
    else if st == Disconnected then
      c.(pc := p.(timerArmed := true), strayTimers := PendingTimers(c))
    else
      c.(pc := p)
  }

  /** A disconnect timer fires (`tracked`: the one the handle names; otherwise
      a stray one). If no such timer is pending nothing happens. A timer that
      fires reads the CURRENT connection's state and hangs up exactly when it
      is `disconnected`. */
  function OnTimer(c: ClientState, tracked: bool): (r: ClientState)
    ensures (if tracked then !c.pc.timerArmed else c.strayTimers == 0) ==> r == c
    ensures (if tracked then c.pc.timerArmed else c.strayTimers > 0) ==> PendingTimers(r) + 1 == PendingTimers(c)
    ensures (if tracked then c.pc.timerArmed else c.strayTimers > 0) && c.pc.ice == Disconnected ==>
      r.outbox == (if c.socketOpen then c.outbox + [HangupOut] else c.outbox) && !r.inCall && r.queue == [] && r.pc.gen != c.pc.gen
    ensures (if tracked then c.pc.timerArmed else c.strayTimers > 0) && c.pc.ice == Disconnected ==>
      && r.zoom == X1 && r.pc.remote.None? && r.pc.applied == []
      && r.negotiating == c.negotiating && r.task == c.task
    ensures c.pc.ice != Disconnected ==> r.(strayTimers := c.strayTimers, pc := r.pc.(timerArmed := c.pc.timerArmed)) == c
  {
    var fired :=
      if tracked && c.pc.timerArmed then Some(c.(pc := c.pc.(timerArmed := false)))
      else if !tracked && c.strayTimers > 0 then Some(c.(strayTimers := c.strayTimers - 1))
      else None;
    match fired
    case None => c
    case Some(s) => if s.pc.ice == Disconnected then Hangup(s) else s
  }

  /** `onicecandidate`: a discovered candidate goes to the peer; the final
      null candidate sends nothing. */
  function OnLocalCandidate(c: ClientState, x: Option<Blob>): (r: ClientState)
    ensures x.None? || !c.socketOpen ==> r == c
    ensures x.Some? && c.socketOpen ==> r.outbox == c.outbox + [CandidateOut(x.value)]
    ensures r.(outbox := c.outbox) == c
  {
    match x
    case None => c
    case Some(v) => Send(c, CandidateOut(v))
  }

  /** The zoom factor a `Zoom` stands for. */
  function Factor(z: Zoom): real {
    match z
    case X1 => 1.0
    case X15 => 1.5
    case X2 => 2.0
  }

  /** `toggleZoom`: 1 becomes 1.5, 1.5 becomes 2, anything else becomes 1. */
  function NextZoom(z: Zoom): (r: Zoom)
    ensures Factor(r) == if Factor(z) == 1.0 then 1.5 else if Factor(z) == 1.5 then 2.0 else 1.0
  {
    match z
    case X1 => X15
    case X15 => X2
    case X2 => X1
  }

  /** `socket.onclose`: resets the call; nothing can be sent afterwards. */
  function OnSocketClosed(c: ClientState): (r: ClientState)
    ensures !r.socketOpen && r.outbox == c.outbox && r.departed == c.departed
    ensures !r.inCall && r.queue == [] && r.zoom == X1
    ensures r.pc.remote.None? && r.pc.applied == [] && r.pc.gen != c.pc.gen
    ensures r.negotiating == c.negotiating && r.task == c.task
    ensures PendingTimers(r) == PendingTimers(c)
  {
    ResetCallState(c).(socketOpen := false)
  }

  /** One event. Settling events without a matching suspended handler, and
      everything after the page has left, change nothing. */
  function Step(c: ClientState, e: Event): ClientState {
    if c.departed then c
    else
      match e
      case Receive(frame, ok) => OnMessage(c, frame, ok)
      case CallSettles(o) => if c.task.Calling? then FinishCall(c, o) else c
      case RemoteSettles(ok) => if c.task.Applying? then RemoteSettles(c, ok) else c
      case AnswerSettles(a) => if c.task.Answering? then AnswerSettles(c, a) else c
      case ClickCall => ClickCallButton(c)
      case IceChange(st) => OnIceChange(c, st)
      case TimerFires(tracked) => OnTimer(c, tracked)
      case LocalCandidate(x) => OnLocalCandidate(c, x)
      case ToggleZoom => c.(zoom := NextZoom(c.zoom))
      case SocketClosed => if c.socketOpen then OnSocketClosed(c) else c
  }

  /** A sequence of events, in order. */
  function Run(c: ClientState, evs: seq<Event>): ClientState
    decreases |evs|
  {
    if evs == [] then c else Run(Step(c, evs[0]), evs[1..])
  }

}

=== FILE: client_properties.dfy ===
/**
 * What the client state machine guarantees across events: the negotiation
 * flag as a guard, the order in which candidates reach the engine, what the
 * disconnect timers do, and the quirks of main.js that follow from its
 * `await`s and its missing `finally`.
 */
module ClientProperties {
  import opened Wrappers
  import opened Signal
  import opened Client

  /** A suspended `call` or `handleOffer` always has the flag raised. */
  predicate Inv(c: ClientState) {
    c.task != NoTask ==> c.negotiating
  }

  /** The flag is raised but no handler will ever lower it: what a rejected
      step of `handleOffer` leaves behind. */
  predicate Stuck(c: ClientState) {
    c.negotiating && c.task == NoTask
  }

  /** No session description in a list of sent messages. */
  predicate NoSessionData(out: seq<Outgoing>) {
    forall i :: 0 <= i < |out| ==> !out[i].OfferOut? && !out[i].AnswerOut?
  }

  /** The candidates `xs` arriving one after another as candidate messages. */
  function CandidateEvents(xs: seq<Blob>): seq<Event> {
    if xs == [] then [] else [Receive(Parsed(Wire(CandidateOut(xs[0]))), false)] + CandidateEvents(xs[1..])
  }

  /** An offer message as the peer sends it. */
  function OfferEvent(sdp: Blob): Event {
    Receive(Parsed(Wire(OfferOut(sdp))), false)
  }

  /** Nothing is ever taken back from the outbox. */
  lemma StepKeepsOutbox(c: ClientState, e: Event)
    ensures c.outbox <= Step(c, e).outbox
  {
  }

  /** The whole history of sent messages is kept in order by every run. */
  lemma {:induction false} RunKeepsOutbox(c: ClientState, evs: seq<Event>)
    ensures c.outbox <= Run(c, evs).outbox
    decreases |evs|
  {
    if evs != [] {
      StepKeepsOutbox(c, evs[0]);
      RunKeepsOutbox(Step(c, evs[0]), evs[1..]);
    }
  }

  /** The guard: a handler is suspended only while the flag is raised, and a
      new `call` or `handleOffer` starts only from a lowered flag, so at
      most one negotiation is ever in flight; a suspended one only moves
      forward (applying, answering, done). */
  lemma StepKeepsInv(c: ClientState, e: Event)
    requires Inv(c)
    ensures Inv(Step(c, e))
    ensures c.task == NoTask && Step(c, e).task != NoTask ==> !c.negotiating
    ensures c.task != NoTask ==>
      Step(c, e).task in {c.task, NoTask} || (c.task.Applying? && Step(c, e).task.Answering?)
  {
  }

  /** The guard holds from the start of every run. */
  lemma {:induction false} RunKeepsInv(c: ClientState, evs: seq<Event>)
    requires Inv(c)
    ensures Inv(Run(c, evs))
    decreases |evs|
  {
    if evs != [] {
      StepKeepsInv(c, evs[0]);
      RunKeepsInv(Step(c, evs[0]), evs[1..]);
    }
  }

  /** An offer that arrives while the flag is raised is dropped: no state
      changes and nothing is sent. */
  lemma OfferDroppedWhileNegotiating(c: ClientState, m: Msg, ok: bool)
    requires c.negotiating && Classify(m).OfferIn?
    ensures Step(c, Receive(Parsed(m), ok)) == c
  {
  }

  /** A create-offer directive while the flag is raised is a no-op. */
  lemma CallIgnoredWhileNegotiating(c: ClientState, m: Msg, ok: bool)
    requires c.negotiating && Classify(m) == CreateOffer
    ensures Step(c, Receive(Parsed(m), ok)) == c
  {
  }

  /** A whole `call` with nothing interleaved: at most one offer goes out,
      and the flag is down again whether or not the engine failed. */
  lemma CallCompletes(c: ClientState, m: Msg, ok: bool, o: CallOutcome)
    requires Inv(c) && !c.negotiating && !c.departed && Classify(m) == CreateOffer
    ensures var r := Step(Step(c, Receive(Parsed(m), ok)), CallSettles(o));
      && !r.negotiating && r.task == NoTask
      && (r.outbox == c.outbox || (o.OfferMade? && r.outbox == c.outbox + [OfferOut(o.sdp)]))
      && r.(outbox := c.outbox) == c
  {

  }

  /** One candidate message from the peer, while the page is live. */
  lemma CandidateStep(c: ClientState, x: Blob)
    requires !c.departed
    ensures Step(c, Receive(Parsed(Wire(CandidateOut(x))), false)) == HandleCandidate(c, x)
  {

  }

  /** The first of several early candidates joins the queue. */
  lemma FirstCandidateQueued(c: ClientState, xs: seq<Blob>)
    requires c.pc.remote.None? && !c.departed && xs != []
    ensures Run(c, CandidateEvents(xs)) == Run(c.(queue := c.queue + [xs[0]]), CandidateEvents(xs[1..]))
  {
    CandidateStep(c, xs[0]);

  }

  /** Candidates that arrive before any remote description is set are
      appended to the queue in arrival order, and nothing else changes. */
  lemma {:induction false} EarlyCandidatesQueue(c: ClientState, xs: seq<Blob>)
    requires c.pc.remote.None? && !c.departed
    ensures Run(c, CandidateEvents(xs)) == c.(queue := c.queue + xs)
    decreases |xs|
  {
    if xs == [] {
      assert c.queue + xs == c.queue;
    } else {
      FirstCandidateQueued(c, xs);
      var s := c.(queue := c.queue + [xs[0]]);
      EarlyCandidatesQueue(s, xs[1..]);
      assert (c.queue + [xs[0]]) + xs[1..] == c.queue + xs;
    }
  }

  /** A successful `handleOffer` with candidates arriving while
      setRemoteDescription is pending: the offer becomes the remote
      description, exactly one answer goes out, the previously queued and the
      newly arrived candidates reach the engine in arrival order, the queue is
      empty and the flag is down. */
  lemma OfferHandshake(c: ClientState, sdp: Blob, xs: seq<Blob>, a: Blob)
    requires !c.negotiating && !c.departed && c.socketOpen && c.pc.remote.None?
    ensures var r := Step(Step(Run(Step(c, OfferEvent(sdp)), CandidateEvents(xs)), RemoteSettles(true)), AnswerSettles(Some(a)));
      && r.pc.remote == Some(sdp)
      && r.outbox == c.outbox + [AnswerOut(a)]
      && r.pc.applied == c.pc.applied + c.queue + xs
      && r.queue == []
      && !r.negotiating && r.task == NoTask
      && r.inCall == c.inCall && r.zoom == c.zoom && r.pc.gen == c.pc.gen
  {
    PeerMessageBranch(OfferOut(sdp));
    var s1 := Step(c, OfferEvent(sdp));
    assert s1 == c.(negotiating := true, task := Applying(sdp, c.pc.gen));
    EarlyCandidatesQueue(s1, xs);
    var s2 := Run(s1, CandidateEvents(xs));
    var s3 := Step(s2, RemoteSettles(true));
    assert s3 == s2.(task := Answering(c.pc.gen), pc := s2.pc.(remote := Some(sdp)));
    var s4 := Step(s3, AnswerSettles(Some(a)));
    assert s4.pc.applied == c.pc.applied + (c.queue + xs);
  }

  /** A candidate that arrives after setRemoteDescription(offer) resolved but
      before the answer is ready goes to the engine at once, ahead of an
      earlier candidate that is still queued: the flush keeps the queue's
      order, not the overall arrival order. */
  lemma LateCandidateOvertakesQueue(c: ClientState, sdp: Blob, x: Blob, y: Blob, a: Blob)
    requires !c.negotiating && !c.departed && c.pc.remote.None? && c.queue == []
    ensures var s2 := Step(Step(c, OfferEvent(sdp)), Receive(Parsed(Wire(CandidateOut(x))), false));
      var s4 := Step(Step(s2, RemoteSettles(true)), Receive(Parsed(Wire(CandidateOut(y))), false));
      Step(s4, AnswerSettles(Some(a))).pc.applied == c.pc.applied + [y, x]
  {

  }

  /** An answer applied while a candidate is still queued does not flush
      it; a candidate arriving during the next `handleOffer` then finds a
      remote description and reaches the engine at once, ahead of the
      queued one, which only the flush after the answer applies. */
  lemma OfferAfterQueuedAnswer(c: ClientState, ans: Blob, sdp: Blob, x: Blob, q: Blob, a: Blob)
    requires !c.negotiating && !c.departed && c.queue == [q]
    ensures var s1 := Step(c, Receive(Parsed(Wire(AnswerOut(ans))), true));
      var s3 := Step(Step(s1, OfferEvent(sdp)), Receive(Parsed(Wire(CandidateOut(x))), false));
      var r := Step(Step(s3, RemoteSettles(true)), AnswerSettles(Some(a)));
      && s1.queue == [q]
      && r.pc.applied == c.pc.applied + [x, q]
      && r.queue == [] && !r.negotiating
  {
  }

  /** A rejected setRemoteDescription(offer) leaves the flag raised with no
      handler left to lower it. */
  lemma RejectedOfferSticks(c: ClientState, sdp: Blob)
    requires !c.negotiating && !c.departed
    ensures Stuck(Step(Step(c, OfferEvent(sdp)), RemoteSettles(false)))
  {

  }

  /** One event from a stuck state: still stuck, and what it sends is no
      session description. */
  lemma StuckStep(c: ClientState, e: Event)
    requires Stuck(c)
    ensures Stuck(Step(c, e))
    ensures c.outbox <= Step(c, e).outbox
    ensures NoSessionData(Step(c, e).outbox[|c.outbox|..])
  {

  }

  /** Once stuck, always stuck: no later event lowers the flag, and the
      client never again sends an offer or an answer. */
  lemma {:induction false} StuckForever(c: ClientState, evs: seq<Event>)
    requires Stuck(c)
    ensures Stuck(Run(c, evs))
    ensures c.outbox <= Run(c, evs).outbox
    ensures NoSessionData(Run(c, evs).outbox[|c.outbox|..])
    decreases |evs|
  {
    if evs != [] {
      var s := Step(c, evs[0]);
      StuckStep(c, evs[0]);
      StuckForever(s, evs[1..]);
      var r := Run(s, evs[1..]);
      assert r.outbox[|c.outbox|..] == s.outbox[|c.outbox|..] + r.outbox[|s.outbox|..];
    }
  }

  /** A `call` or `handleOffer` whose connection was closed and replaced
      while it was suspended can never finish: its next settling leaves the flag raised
      with no handler, and sends nothing. */
  lemma StaleHandlerSticks(c: ClientState, e: Event)
    requires !c.departed && c.negotiating
    requires || (c.task.Calling? && e.CallSettles?)
             || (c.task.Applying? && e.RemoteSettles?)
             || (c.task.Answering? && e.AnswerSettles?)
    requires c.task.gen != c.pc.gen
    ensures Stuck(Step(c, e)) && Step(c, e).outbox == c.outbox
  {
  }

  /** A hangup message from the peer, while the page is live, is exactly
      `resetCallState`. */
  lemma HangupStep(c: ClientState)
    requires !c.departed
    ensures Step(c, Receive(Parsed(Wire(HangupOut)), false)) == ResetCallState(c)
  {
  }

  /** A hangup from the peer while `handleOffer` waits, at either await,
      strands the handler: whatever the engine then reports, the flag stays
      raised for good and no answer is sent. */
  lemma ResetDuringOfferSticks(c: ClientState, sdp: Blob, ok: bool, a: Option<Blob>)
    requires !c.negotiating && !c.departed
    ensures var s := Step(Step(c, OfferEvent(sdp)), Receive(Parsed(Wire(HangupOut)), false));
      && Stuck(Step(s, RemoteSettles(ok))) && Step(s, RemoteSettles(ok)).outbox == c.outbox
    ensures var t := Step(Step(Step(c, OfferEvent(sdp)), RemoteSettles(true)), Receive(Parsed(Wire(HangupOut)), false));
      && Stuck(Step(t, AnswerSettles(a))) && Step(t, AnswerSettles(a)).outbox == c.outbox
  {
    PeerMessageBranch(OfferOut(sdp));
    var s1 := Step(c, OfferEvent(sdp));
    assert s1 == c.(negotiating := true, task := Applying(sdp, c.pc.gen));
    HangupStep(s1);
    var s2 := Step(s1, RemoteSettles(true));
    HangupStep(s2);
  }

  /** A hangup from the peer while `call` waits for the engine strands it:
      whatever the engine then reports, no offer is sent and the flag stays
      raised for good. */
  lemma ResetDuringCallSticks(c: ClientState, m: Msg, ok: bool, o: CallOutcome)
    requires !c.negotiating && !c.departed && Classify(m) == CreateOffer
    ensures var s := Step(Step(c, Receive(Parsed(m), ok)), Receive(Parsed(Wire(HangupOut)), false));
      && Stuck(Step(s, CallSettles(o))) && Step(s, CallSettles(o)).outbox == c.outbox
  {
  }

  /** While the socket is closed, no event sends anything or reopens it. */
  lemma ClosedStep(c: ClientState, e: Event)
    requires !c.socketOpen
    ensures Step(c, e).outbox == c.outbox && !Step(c, e).socketOpen
  {
  }

  /** After `socket.onclose` nothing the client does ever reaches the peer. */
  lemma {:induction false} ClosedSendsNothing(c: ClientState, evs: seq<Event>)
    requires !c.socketOpen
    ensures Run(c, evs).outbox == c.outbox && !Run(c, evs).socketOpen
    decreases |evs|
  {
    if evs != [] {
      ClosedStep(c, evs[0]);
      ClosedSendsNothing(Step(c, evs[0]), evs[1..]);
    }
  }

  /** An answer is applied whatever the flag, the call state or a
      suspended handler, and already-queued candidates stay queued. */
  lemma AnswerIgnoresState(c: ClientState, m: Msg)
    requires !c.departed && Classify(m).AnswerIn?
    ensures var r := Step(c, Receive(Parsed(m), true));
      && r.pc.remote == m.answer
      && r.queue == c.queue && r.pc.applied == c.pc.applied
      && r.negotiating == c.negotiating && r.task == c.task && r.inCall == c.inCall
      && r.outbox == c.outbox
  {
  }

  /** A hangup from the peer resets the call but keeps the flag. */
  lemma HangupKeepsFlag(c: ClientState, m: Msg, ok: bool)
    requires !c.departed && Classify(m) == HangupIn
    ensures var r := Step(c, Receive(Parsed(m), ok));
      && r.negotiating == c.negotiating && r.task == c.task
      && r.queue == [] && !r.inCall && r.zoom == X1 && r.pc.remote.None?
      && r.outbox == c.outbox
  {
  }

  /** Connectivity that returns before the timer fires: the timer is
      cancelled, so firing it later does nothing, and no hangup is sent. */
  lemma DisconnectRecovered(c: ClientState)
    requires !c.departed
    ensures var r := Step(Step(Step(c, IceChange(Disconnected)), IceChange(Connected)), TimerFires(true));
      && r.outbox == c.outbox && r.inCall && r.pc.ice == Connected
      && PendingTimers(r) == PendingTimers(c)
  {

  }

  /** Connectivity that stays down until the timer fires: exactly one hangup
      is sent and the call is reset. */
  lemma DisconnectExpired(c: ClientState)
    requires !c.departed && c.socketOpen
    ensures var r := Step(Step(c, IceChange(Disconnected)), TimerFires(true));
      && r.outbox == c.outbox + [HangupOut]
      && !r.inCall && r.queue == [] && r.pc.remote.None? && r.pc.gen != c.pc.gen
      && r.negotiating == c.negotiating
  {

  }

  /** `failed` triggers nothing: no hangup, no reset, only the state. */
  lemma FailedDoesNothing(c: ClientState)
    requires !c.departed
    ensures Step(c, IceChange(Failed)) == c.(pc := c.pc.(ice := Failed))
  {
  }

  /** Two disconnections with no `connected` between them overwrite the
      timer handle: `connected` then cancels only the second timer, and the
      first one, still pending, hangs up at once on the next disconnection
      instead of after the grace period. */
  lemma OverwrittenTimerHangsUpEarly(c: ClientState)
    requires !c.departed && c.socketOpen && PendingTimers(c) == 0
    ensures var s4 := Step(Step(Step(Step(c, IceChange(Disconnected)), IceChange(Checking)), IceChange(Disconnected)), IceChange(Connected));
      && PendingTimers(s4) == 1 && s4.inCall
      && Step(Step(s4, IceChange(Disconnected)), TimerFires(false)).outbox == c.outbox + [HangupOut]
  {

  }

  /** The zoom button cycles 1, 1.5, 2 and back: three presses restore the
      zoom and no press leaves it unchanged. */
  lemma ZoomCycle(z: Zoom)
    ensures NextZoom(NextZoom(NextZoom(z))) == z
    ensures NextZoom(z) != z
    ensures Factor(NextZoom(NextZoom(z))) != Factor(z)
  {
  }

}

=== FILE: pair.dfy ===
/**
 * Two copies of the client in one room. With only the two of them in it,
 * the relay hands every frame one sends to the other, unchanged and in the
 * order it was sent (see RelayProperties.PairRelay), so the relay shrinks
 * to two in-order pipes: `ToA` delivers the next frame `b` sent that `a`
 * has not yet received. A schedule may stop delivering at any point, which
 * covers frames lost when a socket closes.
 *
 * No client ever sends create-offer (the only message that starts `call`),
 * and the server sends nothing of its own, so between two copies of this
 * client no offer and no answer is ever sent and neither peer connection
 * ever receives a remote description.
 */
module Pair {
  import opened Signal
  import opened Client
  import opened ClientProperties

  /** Both clients and how many of the other's sent frames each has received. */
  datatype Link = Link(a: ClientState, b: ClientState, aRead: nat, bRead: nat)

  /** A local event at one client, or the delivery of the next frame to it.
      Frames reach a client only through delivery. */
  datatype PairEvent = AtA(e: Event) | AtB(e: Event) | ToA(answerAccepted: bool) | ToB(answerAccepted: bool)

  /** Both pages loaded and connected, nothing sent yet. */
  function PairInit(): Link {
    Link(Init(), Init(), 0, 0)
  }

  function PairStep(p: Link, pe: PairEvent): Link {
    match pe
    case AtA(e) => if e.Receive? then p else p.(a := Step(p.a, e))
    case AtB(e) => if e.Receive? then p else p.(b := Step(p.b, e))
    case ToA(ok) =>
      if p.aRead < |p.b.outbox| then
        p.(a := Step(p.a, Receive(Parsed(Wire(p.b.outbox[p.aRead])), ok)), aRead := p.aRead + 1)
      else p
    case ToB(ok) =>
      if p.bRead < |p.a.outbox| then
        p.(b := Step(p.b, Receive(Parsed(Wire(p.a.outbox[p.bRead])), ok)), bRead := p.bRead + 1)
      else p
  }

  function PairRun(p: Link, pes: seq<PairEvent>): Link
    decreases |pes|
  {
    if pes == [] then p else PairRun(PairStep(p, pes[0]), pes[1..])
  }

  /** A client that has not negotiated and has sent no session description. */
  predicate Quiet(c: ClientState) {
    && !c.negotiating && c.task == NoTask && c.pc.remote.None?
    && NoSessionData(c.outbox)
  }

  /** An event that is not a frame selecting create-offer, offer or answer. */
  predicate Harmless(e: Event) {
    e.Receive? ==>
      e.frame.Parsed? &&
      var b := Classify(e.frame.msg);
      b.CandidateIn? || b == HangupIn || b == Ignored
  }

  /** A frame sent by a quiet client is harmless to its peer. */
  lemma QuietFrameHarmless(o: Outgoing, ok: bool)
    requires !o.OfferOut? && !o.AnswerOut?
    ensures Harmless(Receive(Parsed(Wire(o)), ok))
  {

  }

  /** A quiet client stays quiet under every harmless event. */
  lemma QuietStep(c: ClientState, e: Event)
    requires Quiet(c) && Harmless(e)
    ensures Quiet(Step(c, e))
  {

  }

  /** Both clients quiet, and each has read no more frames than the other sent. */
  predicate PairInv(p: Link) {
    Quiet(p.a) && Quiet(p.b) && p.aRead <= |p.b.outbox| && p.bRead <= |p.a.outbox|
  }

  lemma PairStepKeepsInv(p: Link, pe: PairEvent)
    requires PairInv(p)
    ensures PairInv(PairStep(p, pe))
  {
    match pe
    case AtA(e) =>
      if !e.Receive? {
        QuietStep(p.a, e);
        StepKeepsOutbox(p.a, e);
      }
    case AtB(e) =>
      if !e.Receive? {
        QuietStep(p.b, e);
        StepKeepsOutbox(p.b, e);
      }
    case ToA(ok) =>
      if p.aRead < |p.b.outbox| {
        var o := p.b.outbox[p.aRead];
        QuietFrameHarmless(o, ok);
        QuietStep(p.a, Receive(Parsed(Wire(o)), ok));
        StepKeepsOutbox(p.a, Receive(Parsed(Wire(o)), ok));
      }
    case ToB(ok) =>
      if p.bRead < |p.a.outbox| {
        var o := p.a.outbox[p.bRead];
        QuietFrameHarmless(o, ok);
        QuietStep(p.b, Receive(Parsed(Wire(o)), ok));
        StepKeepsOutbox(p.b, Receive(Parsed(Wire(o)), ok));
      }
  }

  lemma {:induction false} PairRunKeepsInv(p: Link, pes: seq<PairEvent>)
    requires PairInv(p)
    ensures PairInv(PairRun(p, pes))
    decreases |pes|
  {
    if pes != [] {
      PairStepKeepsInv(p, pes[0]);
      PairRunKeepsInv(PairStep(p, pes[0]), pes[1..]);
    }
  }

  /** Whatever the two users click, whatever the engines report and however
      delivery is scheduled, no offer or answer is ever sent, neither flag is
      ever raised and neither peer connection ever holds a remote description. */
  lemma NoCallIsEverNegotiated(pes: seq<PairEvent>)
    ensures var p := PairRun(PairInit(), pes);
      && NoSessionData(p.a.outbox) && NoSessionData(p.b.outbox)
      && !p.a.negotiating && !p.b.negotiating
      && p.a.pc.remote.None? && p.b.pc.remote.None?
  {
    PairRunKeepsInv(PairInit(), pes);
  }

}

=== FILE: relay.dfy ===
/**
 * The WebSocket server's `connection` handler: admission by the `room`
 * query parameter, and the relay of every frame to the other open clients
 * of the sender's room. Connections are numbered in the order they were
 * made, which is the order `wss.clients` iterates them. The server keeps
 * two logs that nothing in it reads: the frames clients sent it, and every
 * `client.send` it made.
 */
module Relay {
  import opened Wrappers

  /** A connection: the room it was given (`ws.room`, absent for a rejected
      one) and whether its readyState is OPEN (1). */
  datatype Conn = Conn(room: Option<string>, open: bool)

  /** A frame a client sent to the server. */
  datatype Sent = Sent(from: nat, payload: string)

  /** A `client.send` made while relaying a frame of `from`. */
  datatype Delivery = Delivery(from: nat, to: nat, payload: string)

  datatype Server = Server(conns: seq<Conn>, sent: seq<Sent>, delivered: seq<Delivery>)

  datatype ServerEvent =
    | Connect(roomParam: Option<string>)
    | Message(sender: nat, payload: string)
    | Disconnect(id: nat)

  function EmptyServer(): Server {
    Server([], [], [])
  }

  /** Admission: a missing or empty `room` parameter (`!room`) closes the
      connection without giving it a room; any other value becomes its room. */
  function Admit(roomParam: Option<string>): (c: Conn)
    ensures c.open <==> roomParam.Some? && roomParam.value != ""
    ensures c.open ==> c.room == roomParam
    ensures !c.open ==> c.room.None?
  {
    if roomParam.None? || roomParam.value == "" then Conn(None, false) else Conn(roomParam, true)
  }

  /** A connection whose `message` handler can run: it was admitted and is
      still open. A rejected connection never registered one. */
  predicate Speaks(conns: seq<Conn>, sender: nat) {
    sender < |conns| && conns[sender].room.Some? && conns[sender].open
  }

  /** The filter of the relay loop: another client, in the same room, open. */
  predicate Eligible(conns: seq<Conn>, sender: nat, i: nat)
    requires sender < |conns| && i < |conns|
  {
    i != sender && conns[i].room == conns[sender].room && conns[i].open
  }

  /** The clients from position `i` on that pass the filter, in iteration order. */
  function RecipientsFrom(conns: seq<Conn>, sender: nat, i: nat): (rs: seq<nat>)
    requires sender < |conns| && i <= |conns|
    ensures forall k :: 0 <= k < |rs| ==> i <= rs[k] < |conns| && Eligible(conns, sender, rs[k])
    ensures forall j :: i <= j < |conns| && Eligible(conns, sender, j) ==> j in rs
    ensures forall k, l :: 0 <= k < l < |rs| ==> rs[k] < rs[l]
    decreases |conns| - i
  {
    if i == |conns| then []
    else if Eligible(conns, sender, i) then [i] + RecipientsFrom(conns, sender, i + 1)
    else RecipientsFrom(conns, sender, i + 1)
  }

  /** Who receives a frame: every other open client of the sender's room,
      each once, in connection order, whatever their number; nobody when
      the sender cannot speak. */
  function Recipients(conns: seq<Conn>, sender: nat): (rs: seq<nat>)
    ensures !Speaks(conns, sender) ==> rs == []
    ensures forall k :: 0 <= k < |rs| ==>
      && Speaks(conns, sender) && rs[k] < |conns| && rs[k] != sender
      && conns[rs[k]].room == conns[sender].room && conns[rs[k]].open
    ensures Speaks(conns, sender) ==> forall j :: 0 <= j < |conns| && j != sender && conns[j].open && conns[j].room == conns[sender].room ==> j in rs
    ensures forall k, l :: 0 <= k < l < |rs| ==> rs[k] < rs[l]
  {
    if Speaks(conns, sender) then RecipientsFrom(conns, sender, 0) else []
  }

  /** The `client.send` calls for one frame: the frame string itself, never
      parsed or rewritten, sent once to every client that passes the filter,
      in connection order, and to nobody else. */
  function Deliveries(conns: seq<Conn>, sender: nat, payload: string): (ds: seq<Delivery>)
    ensures !Speaks(conns, sender) ==> ds == []
    ensures forall k :: 0 <= k < |ds| ==>
      && ds[k].from == sender && ds[k].payload == payload
      && Speaks(conns, sender) && ds[k].to < |conns| && Eligible(conns, sender, ds[k].to)
    ensures Speaks(conns, sender) ==> forall j :: 0 <= j < |conns| && Eligible(conns, sender, j) ==>
      exists k :: 0 <= k < |ds| && ds[k].to == j
    ensures forall k, l :: 0 <= k < l < |ds| ==> ds[k].to < ds[l].to
  {
    var rs := Recipients(conns, sender);
    var ds := seq(|rs|, k requires 0 <= k < |rs| => Delivery(sender, rs[k], payload));
    assert forall j :: j in rs ==> exists k :: 0 <= k < |ds| && ds[k].to == j by {
      forall j | j in rs ensures exists k :: 0 <= k < |ds| && ds[k].to == j {
        var k :| 0 <= k < |rs| && rs[k] == j;
        assert ds[k].to == j;
      }
    }
    ds
  }

  /** A new connection, admitted or closed; nothing is sent to anyone. */
  function OnConnect(s: Server, roomParam: Option<string>): (r: Server)
    ensures r.conns == s.conns + [Admit(roomParam)]
    ensures r.sent == s.sent && r.delivered == s.delivered
  {
    s.(conns := s.conns + [Admit(roomParam)])
  }

  /** A frame from `sender`: logged and relayed. A connection that cannot
      speak produces no frame. */
  function OnMessage(s: Server, sender: nat, payload: string): (r: Server)
    ensures r.conns == s.conns
    ensures Speaks(s.conns, sender) ==> r.sent == s.sent + [Sent(sender, payload)]
    ensures r.delivered == s.delivered + Deliveries(s.conns, sender, payload)
    ensures !Speaks(s.conns, sender) ==> r == s
  {
    if Speaks(s.conns, sender) then
      s.(sent := s.sent + [Sent(sender, payload)], delivered := s.delivered + Deliveries(s.conns, sender, payload))
    else s
  }

  /** A connection closes. The handler only logs: the connection's readyState
      leaves OPEN and no other client, room or frame is touched. */
  function OnClose(s: Server, id: nat): (r: Server)
    ensures |r.conns| == |s.conns|
    ensures forall i :: 0 <= i < |s.conns| && i != id ==> r.conns[i] == s.conns[i]
    ensures id < |s.conns| ==> r.conns[id] == s.conns[id].(open := false)
    ensures r.sent == s.sent && r.delivered == s.delivered
  {
    if id < |s.conns| then s.(conns := s.conns[id := s.conns[id].(open := false)]) else s
  }

  function ServerStep(s: Server, e: ServerEvent): Server {
    match e
    case Connect(p) => OnConnect(s, p)
    case Message(sender, payload) => OnMessage(s, sender, payload)
    case Disconnect(id) => OnClose(s, id)
  }

  function ServerRun(s: Server, evs: seq<ServerEvent>): Server
    decreases |evs|
  {
    if evs == [] then s else ServerRun(ServerStep(s, evs[0]), evs[1..])
  }

}

=== FILE: relay_properties.dfy ===
/**
 * What the relay guarantees over any sequence of connections, frames and
 * closes: a rejected connection stays out of every room, and every frame a
 * client receives is one that another client of its room sent, unchanged.
 * The server originates nothing.
 */
module RelayProperties {
  import opened Wrappers
  import opened Relay

  /** Connections without a room are closed. */
  predicate RoomlessClosed(s: Server) {
    forall i :: 0 <= i < |s.conns| ==> s.conns[i].room.None? ==> !s.conns[i].open
  }

  /** Every logged frame came from a connection that has a room. */
  predicate SentByMembers(s: Server) {
    forall k :: 0 <= k < |s.sent| ==> s.sent[k].from < |s.conns| && s.conns[s.sent[k].from].room.Some?
  }

  /** Every send went to another connection of the sender's room, carrying
      a frame the sender sent. */
  predicate DeliveredWithinRoom(s: Server) {
    forall k :: 0 <= k < |s.delivered| ==>
      var d := s.delivered[k];
      && d.from < |s.conns| && d.to < |s.conns| && d.from != d.to
      && s.conns[d.from].room.Some? && s.conns[d.to].room == s.conns[d.from].room
      && Sent(d.from, d.payload) in s.sent
  }

  predicate ServerInv(s: Server) {
    RoomlessClosed(s) && SentByMembers(s) && DeliveredWithinRoom(s)
  }

  lemma ServerStepKeepsInv(s: Server, e: ServerEvent)
    requires ServerInv(s)
    ensures ServerInv(ServerStep(s, e))
  {

  }

  lemma {:induction false} ServerRunKeepsInv(s: Server, evs: seq<ServerEvent>)
    requires ServerInv(s)
    ensures ServerInv(ServerRun(s, evs))
    decreases |evs|
  {
    if evs != [] {
      ServerStepKeepsInv(s, evs[0]);
      ServerRunKeepsInv(ServerStep(s, evs[0]), evs[1..]);
    }
  }

  /** From a fresh server, whatever happens: a connection without a room is
      closed, sends nothing and receives nothing; every frame a client
      receives was sent, as that very string, by another client of the same
      room. */
  lemma EveryDeliveryFromRoommate(evs: seq<ServerEvent>)
    ensures var s := ServerRun(EmptyServer(), evs);
      && (forall i :: 0 <= i < |s.conns| && s.conns[i].room.None? ==> !s.conns[i].open)
      && (forall k :: 0 <= k < |s.sent| ==> s.sent[k].from < |s.conns| && s.conns[s.sent[k].from].room.Some?)
      && (forall k :: 0 <= k < |s.delivered| ==>
            && s.delivered[k].from < |s.conns| && s.delivered[k].to < |s.conns|
            && s.delivered[k].from != s.delivered[k].to
            && s.conns[s.delivered[k].to].room.Some?
            && s.conns[s.delivered[k].to].room == s.conns[s.delivered[k].from].room
            && Sent(s.delivered[k].from, s.delivered[k].payload) in s.sent)
  {
    ServerRunKeepsInv(EmptyServer(), evs);
  }

  /** A strictly increasing sequence of numbers drawn from `[lo, hi)` has at
      most `hi - lo` elements: the relay sends to each client at most once. */
  lemma {:induction false} IncreasingWithin(rs: seq<nat>, lo: nat, hi: nat)
    requires lo <= hi
    requires forall k :: 0 <= k < |rs| ==> lo <= rs[k] < hi
    requires forall k, l :: 0 <= k < l < |rs| ==> rs[k] < rs[l]
    ensures |rs| <= hi - lo
    decreases |rs|
  {
    if rs != [] {
      IncreasingWithin(rs[1..], rs[0] + 1, hi);
    }
  }

  /** In a room holding exactly two open connections, a frame of one goes to
      the other and to nobody else. */
  lemma PairRelay(conns: seq<Conn>, i: nat, j: nat)
    requires Speaks(conns, i) && j < |conns| && j != i && conns[j].open && conns[j].room == conns[i].room
    requires forall k :: 0 <= k < |conns| && k != i && k != j ==> !conns[k].open || conns[k].room != conns[i].room
    ensures Recipients(conns, i) == [j]
  {
    var rs := Recipients(conns, i);
    assert j in rs;
    IncreasingWithin(rs, j, j + 1);
  }

  /** There is no room capacity: a third client joining a room is admitted
      and receives its roommates' frames like the others. */
  lemma ThirdClientAdmitted()
    ensures var s := ServerStep(ServerStep(ServerStep(ServerStep(EmptyServer(),
        Connect(Some("r1"))), Connect(Some("r1"))), Connect(Some("r1"))), Message(0, "hello"));
      && s.conns == [Conn(Some("r1"), true), Conn(Some("r1"), true), Conn(Some("r1"), true)]
      && s.delivered == [Delivery(0, 1, "hello"), Delivery(0, 2, "hello")]
  {
    var r1 := Conn(Some("r1"), true);
    var s3 := ServerStep(ServerStep(ServerStep(EmptyServer(), Connect(Some("r1"))), Connect(Some("r1"))), Connect(Some("r1")));
    assert s3 == Server([r1, r1, r1], [], []);
    assert RecipientsFrom(s3.conns, 0, 3) == [];
    assert RecipientsFrom(s3.conns, 0, 1) == [1, 2];
  }

  /** A connection with no or an empty `room` parameter is closed and left
      out of the relay, even next to a room member; another room is left out
      too; and a frame that is not JSON is relayed unchanged. */
  lemma RejectedAndForeignLeftOut()
    ensures var s := ServerStep(ServerStep(ServerStep(ServerStep(ServerStep(EmptyServer(),
        Connect(Some("r1"))), Connect(None)), Connect(Some(""))), Connect(Some("r2"))), Connect(Some("r1")));
      && s.conns[1] == Conn(None, false) && s.conns[2] == Conn(None, false)
      && ServerStep(s, Message(4, "{oops")).delivered == [Delivery(4, 0, "{oops")]
      && ServerStep(s, Message(1, "hi")) == s
  {

  }

  /** Closing one connection leaves every other connection and the logs as
      they were; the closed one only stops receiving. */
  lemma CloseTouchesNoOther(s: Server, id: nat, sender: nat, payload: string)
    requires id < |s.conns| && sender != id
    ensures var r := ServerStep(s, Disconnect(id));
      && r.sent == s.sent && r.delivered == s.delivered
      && (forall i :: 0 <= i < |s.conns| && i != id ==> r.conns[i] == s.conns[i])
      && id !in Recipients(r.conns, sender)
  {
  }

}

=== FILE: signal.dfy ===
/**
 * The messages two clients exchange through the relay, as the client's
 * `onmessage` handler sees them, and the one branch it takes on each.
 */
module Signal {
  import opened Wrappers

  /** A value made and consumed only by the WebRTC engine: a session
      description or an ICE candidate. The signalling code never looks inside. */
  type Blob = string

  /** The fields of a parsed message that `onmessage` tests. A field is `Some`
      exactly when it is present and truthy in the JSON object; `kind` is the
      `type` field when that is a string. */
  datatype Msg = Msg(kind: Option<string>, offer: Option<Blob>, answer: Option<Blob>, candidate: Option<Blob>)

  /** A frame as it reaches `onmessage`: `JSON.parse` either throws or yields an object. */
  datatype Inbound = Unparseable | Parsed(msg: Msg)

  /** The eight tests of the `onmessage` chain, each read on its own. */
  datatype Test = IsRoomFull | IsCreateOffer | IsPeerJoined | HasOffer | HasAnswer | HasCandidate | IsCount | IsHangup

  /** Whether a message passes one test, independently of the others. */
  predicate Holds(m: Msg, t: Test) {
    match t
    case IsRoomFull => m.kind == Some("room-full")
    case IsCreateOffer => m.kind == Some("create-offer")
    case IsPeerJoined => m.kind == Some("peer-joined")
    case HasOffer => m.offer.Some?
    case HasAnswer => m.answer.Some?
    case HasCandidate => m.candidate.Some?
    case IsCount => m.kind == Some("count")
    case IsHangup => m.kind == Some("hangup")
  }

  /** The position of a test in the chain: lower ranks are tried first. */
  function Rank(t: Test): nat {
    match t
    case IsRoomFull => 0
    case IsCreateOffer => 1
    case IsPeerJoined => 2
    case HasOffer => 3
    case HasAnswer => 4
    case HasCandidate => 5
    case IsCount => 6
    case IsHangup => 7
  }

  /** The branch `onmessage` takes, with the payload it hands on. */
  datatype Branch =
    | RoomFull
    | CreateOffer
    | PeerJoined
    | OfferIn(sdp: Blob)
    | AnswerIn(sdp: Blob)
    | CandidateIn(candidate: Blob)
    | Count
    | HangupIn
    | Ignored

  /** The test that selects a branch. */
  function TestOf(b: Branch): Test
    requires !b.Ignored?
  {
    match b
    case RoomFull => IsRoomFull
    case CreateOffer => IsCreateOffer
    case PeerJoined => IsPeerJoined
    case OfferIn(_) => HasOffer
    case AnswerIn(_) => HasAnswer
    case CandidateIn(_) => HasCandidate
    case Count => IsCount
    case HangupIn => IsHangup
  }

  /** The if/else-if chain of `onmessage`: the branch of the first test, in
      rank order, that the message passes; no branch when it passes none. */
  function Classify(m: Msg): (b: Branch)
    ensures !b.Ignored? ==> Holds(m, TestOf(b))
    ensures b.Ignored? <==> forall t :: !Holds(m, t)
    ensures !b.Ignored? ==> forall t :: Rank(t) < Rank(TestOf(b)) ==> !Holds(m, t)
    ensures b.OfferIn? ==> m.offer == Some(b.sdp)
    ensures b.AnswerIn? ==> m.answer == Some(b.sdp)
    ensures b.CandidateIn? ==> m.candidate == Some(b.candidate)
  {
    var b :=
      if m.kind == Some("room-full") then RoomFull
      else if m.kind == Some("create-offer") then CreateOffer
      else if m.kind == Some("peer-joined") then PeerJoined
      else if m.offer.Some? then OfferIn(m.offer.value)
      else if m.answer.Some? then AnswerIn(m.answer.value)
      else if m.candidate.Some? then CandidateIn(m.candidate.value)
      else if m.kind == Some("count") then Count
      else if m.kind == Some("hangup") then HangupIn
      else Ignored;
    assert !b.Ignored? ==> Holds(m, TestOf(b));
    b
  }

  /** What a client hands to `sendMessage`. */
  datatype Outgoing =
    | OfferOut(sdp: Blob)
    | AnswerOut(sdp: Blob)
    | CandidateOut(candidate: Blob)
    | RequestToCall
    | HangupOut

  /** The message the other client parses once the relay has forwarded the
      JSON text of an outgoing message unchanged. */
  function Wire(o: Outgoing): Msg {
    match o
    case OfferOut(s) => Msg(None, Some(s), None, None)
    case AnswerOut(s) => Msg(None, None, Some(s), None)
    case CandidateOut(c) => Msg(None, None, None, Some(c))
    case RequestToCall => Msg(Some("request-to-call"), None, None, None)
    case HangupOut => Msg(Some("hangup"), None, None, None)
  }

  /** How a client reads what another client sent: session data lands in
      the matching branch with its payload intact, a hangup in the hangup
      branch, and a request-to-call in no branch at all. No client message
      ever selects room-full, create-offer, peer-joined or count. */
  lemma PeerMessageBranch(o: Outgoing)
    ensures o.OfferOut? ==> Classify(Wire(o)) == OfferIn(o.sdp)
    ensures o.AnswerOut? ==> Classify(Wire(o)) == AnswerIn(o.sdp)
    ensures o.CandidateOut? ==> Classify(Wire(o)) == CandidateIn(o.candidate)
    ensures o.HangupOut? ==> Classify(Wire(o)) == HangupIn
    ensures o.RequestToCall? ==> Classify(Wire(o)) == Ignored
    ensures !Holds(Wire(o), IsRoomFull) && !Holds(Wire(o), IsCreateOffer)
    ensures !Holds(Wire(o), IsPeerJoined) && !Holds(Wire(o), IsCount)
  {

  }

}

=== FILE: wrappers.dfy ===
/** Optional values: absent JSON fields, a missing `room` query parameter,
    an engine step that produced nothing. */
module Wrappers {

  datatype Option<+T> = None | Some(value: T)

}
